=== FILE: README.md ===
# Sighting-console display widgets, modelled in Dafny

This project models the logic of the display panel of an optical sighting
console. The panel is written in Python on PyQt5 and comes in a 10-inch and a
7-inch variant. The model covers three widgets:

- **`VideoWidget`** (both variants). The widget state is a record: the day
  flag, the stored pixmap, the stored target box and the error text. Its
  setters are pure state transitions. Its repaint is a pure function of the
  state and the widget size. It returns what would be drawn:
  - the background (the video frame, or a black panel with an optional error banner);
  - the crosshair, with its anchor, length and two segments;
  - the mil ruler, as a list of ticks, each with an x position, a length and
    an optional caption.
- **`RadianAnglePicker`** (both variants). This is the 0–90° elevation gauge:
  the clamping `set_angle` and the integer layout of its quarter arc.
- **`FullCircleAnglePicker`** (7-inch). This is the 0–360° azimuth gauge: the
  floored `set_angle(a) = a % 360` and the integer layout of its circle and 24
  scale marks.

The capture thread (`VideoThread`) is modelled only as the sequence of
signals it emits into the video widget.

Files:

| file | module | contents |
|---|---|---|
| `common.dfy` | `Common` | `Option`, `Result` (a Python exception escaping a call), `Point`, `Segment` |
| `arith.dfy` | `Arith` | `TruncDiv`: Python's `int()` of an exact quotient, which truncates toward zero; `Clamp` |
| `overlay.dfy` | `Overlay` | widget state, the per-variant `Config` constants, the setters both variants share, background, crosshair, mil ruler, `Paint` |
| `video_input.dfy` | `VideoInput` | the box-feed argument (`None` or a dict), frame arguments, widget events |
| `video_ten_inch.dfy` | `TenInchVideo` | 10-inch setters (box validated, exceptions caught), thread signals |
| `video_seven_inch.dfy` | `SevenInchVideo` | 7-inch setters (box unchecked, exceptions escape), thread signals |
| `gauge.dfy` | `Gauge` | the angle-and-day-flag state both gauges keep, and its day-mode setter |
| `elevation_gauge.dfy` | `ElevationGauge` | both `RadianAnglePicker`s |
| `azimuth_gauge.dfy` | `AzimuthGauge` | `FullCircleAnglePicker` |

Modelling choices:

- **Exact arithmetic.** Python's `W / pw` and `W / 349` are floats. The model
  evaluates every product on exact values and then truncates it the way
  `int()` does. So the anchor is `TruncDiv(c * W, pw)` and a tick sits at
  `TruncDiv(349 * cx + mil * W, 349)`.
- **Integer operators.** Python's `//` and `%` with a positive divisor
  agree with Dafny's `/` and `%`, so they are written directly.
- **Pixmap size.** A stored pixmap is represented only by the positive size
  it has after scaling to the widget. That scaled size is what the 10-inch
  box check compares against.
- **Errors.** An exception that a 10-inch setter catches becomes part of the
  resulting state. An exception that escapes a 7-inch setter becomes
  `Err(name)`, and the state is unchanged.

Points where the code behaves differently from what a reader might expect
(the model follows the code):

- **Box without a frame.** One might expect a box to be ignored while no
  frame is known. The code keeps the box and uses a scale of 1, so the anchor
  is the box centre in frame pixels.
- **Truncation.** One might expect 187.5 to round to 188. `int()` truncates
  it to 187 (`TenInchVideo.ScaledBoxScenario`).
- **Error banner.** One might expect a capture error to stay on screen as a
  red banner. The thread follows every error with a null frame, and
  `set_pixmap` then clears the text at once. After any thread output the
  error text is empty (`TenInchVideo.CaptureRunClearsError`,
  `SevenInchVideo.CaptureRunClearsError`). Only the 10-inch constructor's
  "camera unavailable" text stays on screen.
- **Box validation.** Only the 10-inch variant validates the box. It checks
  the box once, against the pixmap stored at that moment. A later, narrower
  frame can then carry the crosshair out of the widget
  (`TenInchVideo.StaleBoxLeavesWidget`).

## Model

| member | source | states |
|---|---|---|
| Arith.TruncDiv | test_10inch/video_widget.py:99-100 | `int()` of an exact quotient: for a non-negative numerator the result is the floor, for a negative one the ceiling; it never moves away from zero |
| Arith.TruncDivMonotone | test_10inch/video_widget.py:119-120 | a larger exact position never truncates to a smaller pixel |
| Arith.Clamp | test_10inch/video_widget.py:101 | `max(lo, min(hi, v))` lies in [lo, hi], keeps in-range values, maps low values to lo and high values to hi |
| Overlay.BackgroundOf | test_10inch/video_widget.py:77-87 | the video is drawn iff a pixmap is stored and the error text is empty; otherwise the panel is black, with a banner iff the error text is non-empty, and the banner shows that text |
| Overlay.ScaleCoord | test_10inch/video_widget.py:97-100 | without a pixmap the box centre is used unscaled; with one it is `c * W / pw` truncated toward zero |
| Overlay.Anchor | test_10inch/video_widget.py:89-100 | without a box the anchor is the widget centre (`W // 2`, `H // 2`); with a box each coordinate is the scaled box centre `x + w // 2` |
| Overlay.CrossLength | test_10inch/video_widget.py:91-101 | the default length without a box; with a box, `(w + h) // 4` when it lies in [min, max], min when it is below, max when it is above (15–45 on 10-inch, 10–30 on 7-inch) |
| Overlay.CrosshairAt | test_10inch/video_widget.py:104-108 | a horizontal segment at the anchor's y and a vertical one at its x, both centred on the anchor, each spanning `length` or `length - 1` pixels |
| Overlay.MakeTickShape | test_10inch/video_widget.py:123-128 | a tick is long iff its offset is a multiple of 10, short otherwise; it has a caption iff the offset is a multiple of 50; every captioned tick is long, its caption spells the offset and sits at `(x - offset, major + offset)` — (x − 15, 25) on 10-inch, (x − 12, 20) on 7-inch |
| Overlay.RulerFrom | test_10inch/video_widget.py:113-128 | every tick drawn has an offset in [-200, 200], an x position in [0, W] equal to the truncated `cx + mil * W / 349`, and the length and caption rules; offsets strictly increase |
| Overlay.RulerComplete | test_10inch/video_widget.py:119-122 | an offset in [-200, 200] gets a tick iff its truncated position lies in [0, W]; no other tick is skipped |
| Overlay.RulerLeftToRight | test_10inch/video_widget.py:119-120 | ticks appear in left-to-right order on a widget of non-negative width |
| Overlay.ZeroTickAtCrosshair | test_7inch/video_widget.py:100-107 | the zero tick lies exactly at the crosshair's x, and it is drawn with the caption "0" whenever 0 ≤ cx ≤ W |
| Overlay.Paint | test_10inch/video_widget.py:71-128 | one repaint: the background is `BackgroundOf` the state; the crosshair is the two segments of `CrosshairAt` at the anchor with length `CrossLength` of the box; the ruler is re-centred on the crosshair; every tick lies inside [0, W] |
| Overlay.PaintIgnoresDayMode | test_10inch/video_widget.py:71-128 | the day flag does not change anything the video widget draws |
| Overlay.FittingBoxAnchorInside | test_10inch/video_widget.py:93-100 | a box that lies inside the stored pixmap puts the crosshair anchor inside [0, W] × [0, H] |
| VideoInput.ReadBox | test_10inch/video_widget.py:43-44 | reading a box succeeds iff the dict has all of "x", "y", "w", "h", and yields those values; otherwise `KeyError` |
| TenInchVideo.Init | test_10inch/video_widget.py:9-20 | starts with no pixmap and no box; the error text is empty iff the camera probe opened the device |
| Overlay.SetDayMode | test_10inch/video_widget.py:28-31 | only the day flag changes (the 7-inch setter is identical) |
| Overlay.SetErrorMessage | test_10inch/video_widget.py:33-37 | stores the message and drops the pixmap, so a frame and an error are never both current; box and day flag are kept (the 7-inch setter is identical) |
| TenInchVideo.SetBoundingBox | test_10inch/video_widget.py:39-57 | a box is stored iff the argument is a non-empty dict with all four keys and x ≥ 0, y ≥ 0, w > 0, h > 0 and, when a pixmap is stored, x + w ≤ its width and y + h ≤ its height; otherwise the box is cleared; nothing else changes |
| TenInchVideo.SetPixmap | test_10inch/video_widget.py:59-69 | a null frame stores no pixmap and a frame stores its scaled size, both clearing the error text; a non-pixmap keeps the stored pixmap and sets the error text to "Lỗi pixmap: " plus the exception text; the box is never rechecked |
| TenInchVideo.FrameOrErrorPreserved | test_10inch/video_widget.py:33-69 | as long as `set_pixmap` receives real pixmaps, a frame and a non-empty error text are never stored together |
| TenInchVideo.PixmapExceptionKeepsFrame | test_10inch/video_widget.py:66-69 | the caught `set_pixmap` exception leaves a frame and an error text stored together |
| TenInchVideo.SetBoundingBoxIdempotent | test_10inch/video_widget.py:39-57 | storing the same box argument twice gives the same state as storing it once |
| TenInchVideo.AcceptedBoxAnchorInside | test_10inch/video_widget.py:45-48 | while the pixmap it was checked against is still stored, an accepted box keeps the repainted crosshair inside the widget |
| TenInchVideo.RejectedBoxCentresCrosshair | test_10inch/video_widget.py:89-101 | whenever the box is rejected or absent, the crosshair sits at (W // 2, H // 2) with length 30 |
| TenInchVideo.StaleBoxLeavesWidget | test_10inch/video_widget.py:59-65 | on an 800×480 widget, a box (600, 0, 40, 40) accepted against a 640×480 frame survives a 480×480 frame, and the crosshair then lands at x = int(620 · 800 / 480) = 1033, past the right edge |
| TenInchVideo.ScaledBoxScenario | test_10inch/video_widget.py:93-101 | box (100, 100, 100, 100) in a 640×480 frame on an 800×480 widget gives anchor (187, 150) and length 45 |
| TenInchVideo.OversizedBoxScenario | test_10inch/video_widget.py:45-50 | box (600, 0, 100, 100) in a 640-pixel-wide frame is dropped; the crosshair returns to (400, 240) with length 30 |
| TenInchVideo.ReadSignals | test_10inch/video_thread.py:24-35 | the frames emitted are exactly the grabbed frames, in order; every error carries the read-failure text and is followed at once by a null frame; exactly one error per failed read; one event per iteration plus one per failed read |
| TenInchVideo.ReadSignalsAppend | test_10inch/video_thread.py:24-35 | the read loop's signals for two stretches of iterations are the first stretch's signals followed by the second's |
| TenInchVideo.ReadSignalsSingle | test_10inch/video_thread.py:25-34 | one iteration emits the grabbed frame, or the read-failure text followed by a null frame |
| TenInchVideo.CaptureSignals | test_10inch/video_thread.py:16-38 | a failed open emits exactly the open-failure text and a null frame; an opened run emits the read loop's signals, followed, if an exception escapes, by the thread-error text and a null frame; every error is followed at once by a null frame; the frames are exactly the grabbed ones, in order |
| TenInchVideo.FailureLeavesBlankPanel | test_10inch/video_thread.py:27-28 | an error followed by a null frame leaves no pixmap and an empty error text, with box and day flag kept |
| TenInchVideo.ReadSignalsClearError | test_10inch/video_thread.py:24-35 | after the signals of one or more loop iterations, the error text is empty |
| TenInchVideo.CaptureRunClearsError | test_10inch/video_thread.py:16-38 | after the signals of a whole thread run (failed open, reads, or an exception), the error text is empty |
| SevenInchVideo.Init | test_7inch/video_widget.py:8-13 | starts with no pixmap, no box and an empty error text |
| SevenInchVideo.SetBoundingBox | test_7inch/video_widget.py:30-41 | `None` or an empty dict clears the box; a dict with all four keys is stored unchecked; a missing key raises `KeyError` and nothing changes |
| SevenInchVideo.SetPixmap | test_7inch/video_widget.py:43-50 | a null frame stores no pixmap and a frame stores its size, both clearing the error text; a non-pixmap raises and nothing changes |
| SevenInchVideo.FrameOrErrorPreserved | test_7inch/video_widget.py:24-50 | every call sequence that does not raise keeps "frame or error, never both" |
| SevenInchVideo.NegativeBoxScenario | test_7inch/video_widget.py:30-41 | an unchecked box at x = -100 puts the crosshair at x = -95 with length 10, and the ruler then has no zero tick |
| SevenInchVideo.CaptureSignals | test_7inch/video_thread.py:15-32 | a closed device emits exactly "Camera disconnected" and a null frame and ends the run; the frames emitted are exactly those grabbed before the device closed, in order; one error per failed read plus one for the closing; every error is followed at once by a null frame; it emits something as soon as it runs one iteration |
| SevenInchVideo.CaptureSignalsAppend | test_7inch/video_thread.py:17-32 | while the device stays open, the signals for two stretches of iterations are the first stretch's signals followed by the second's |
| SevenInchVideo.CaptureSignalsSingle | test_7inch/video_thread.py:18-31 | one iteration emits the grabbed frame, or "Failed to read frame" and a null frame; a closed device emits "Camera disconnected" and a null frame and nothing after it |
| SevenInchVideo.CaptureSignalsAccepted | test_7inch/video_thread.py:15-32 | no signal of the capture thread raises in the widget |
| SevenInchVideo.FailureLeavesBlankPanel | test_7inch/video_thread.py:23-25 | an error followed by a null frame leaves no pixmap and an empty error text, with box and day flag kept |
| SevenInchVideo.CaptureRunClearsError | test_7inch/video_thread.py:15-32 | after the signals of any non-empty thread run, the error text is empty |
| ElevationGauge.Init | test_10inch/radian_angle_picker.py:8-12 | the initial angle is 45 |
| Gauge.SetDayMode | test_10inch/radian_angle_picker.py:14-17 | only the day flag changes (the 7-inch elevation and azimuth gauges' setters are identical) |
| ElevationGauge.ClampAngle | test_10inch/radian_angle_picker.py:22 | the stored angle lies in [0, 90]; in-range values are kept, lower ones become 0 and higher ones 90 |
| ElevationGauge.TenInchSetAngle | test_10inch/radian_angle_picker.py:19-25 | a number is clamped into [0, 90]; input `float()` rejects leaves the gauge unchanged; the day flag never changes |
| ElevationGauge.SevenInchSetAngle | test_7inch/radian_angle_picker.py:19-22 | a number is clamped into [0, 90]; a non-number raises `TypeError` |
| ElevationGauge.SetAngleIdempotent | test_10inch/radian_angle_picker.py:22 | setting the same angle twice is the same as setting it once, on both variants |
| ElevationGauge.StoredAngleIsFixed | test_10inch/radian_angle_picker.py:22 | setting the stored angle again changes nothing |
| ElevationGauge.LayoutOf | test_10inch/radian_angle_picker.py:32-56 | radius `min(w, h) - 4` and centre `(w - 2 - r, h - 2)` keep the arc inside the 2-pixel margin and touch it on the narrower side; the axes run from the centre `r` to the right and `r` up; mark length is `r // 6` and font size `min(10, r // 8)` |
| ElevationGauge.TenInchMinimumLayout | test_10inch/radian_angle_picker.py:10-56 | at the 124×124 minimum the radius is at least 120, the font size 10 and marks at least 20 px |
| ElevationGauge.SevenInchMinimumLayout | test_7inch/radian_angle_picker.py:10-52 | at the 80×80 minimum the radius is at least 76, the font size 9 or 10 and marks at least 12 px |
| ElevationGauge.MarkAngles | test_10inch/radian_angle_picker.py:57 | seven marks in increasing order, exactly the multiples of 15 in [0, 90] |
| AzimuthGauge.Init | test_7inch/full_circle_angle_picker.py:8-12 | the initial angle is 39 |
| AzimuthGauge.Wrap360 | test_7inch/full_circle_angle_picker.py:21 | floored `a % 360` lies in [0, 360) and differs from `a` by a whole number of turns, also for negative `a` |
| AzimuthGauge.SetAngle | test_7inch/full_circle_angle_picker.py:19-22 | the stored angle lies in [0, 360) and is a whole number of turns from the argument; the day flag is kept |
| AzimuthGauge.Wrap360Fixed | test_7inch/full_circle_angle_picker.py:21 | an angle already in [0, 360) is kept |
| AzimuthGauge.Wrap360Periodic | test_7inch/full_circle_angle_picker.py:21 | `a` and `a + 360k` wrap to the same angle |
| AzimuthGauge.SetAngleTurns | test_7inch/full_circle_angle_picker.py:21 | `set_angle(a)` and `set_angle(a + 360k)` store the same value; setting the stored value again changes nothing |
| AzimuthGauge.NegativeAngleScenario | test_7inch/full_circle_angle_picker.py:21 | -90 is stored as 270 |
| AzimuthGauge.LayoutOf | test_7inch/full_circle_angle_picker.py:28-58 | centre `(w // 2, h // 2)` and radius `min(cx, cy) - 5` keep the circle and both diameters at least 5 px inside the widget and touch that margin on the narrower side; mark length is `r // 6` and font size `min(8, r // 10)` |
| AzimuthGauge.MinimumLayout | test_7inch/full_circle_angle_picker.py:10-44 | at the 80×80 minimum the radius is at least 35, the font size between 3 and 8 and marks at least 5 px |
| AzimuthGauge.Marks | test_7inch/full_circle_angle_picker.py:45-52 | 24 marks in increasing order, each a multiple of 15 in [0, 360) and every such multiple present; a mark is emphasised iff its angle is a multiple of 45 |
| AzimuthGauge.EightEmphasisedMarks | test_7inch/full_circle_angle_picker.py:45-52 | exactly eight marks are emphasised |

## Left out

- Qt rendering: `QPainter`, pens, colours, fonts, `drawPixmap`, text
  metrics, `update`, `closeEvent`. The model returns geometry, not pixels.
  The caption of a tick is the integer whose decimal text `str(mil)` is drawn.
- Where the video frame is placed: `QRect.moveCenter` is Qt code and is not
  part of this model. The background says only whether the frame is shown.
- Aspect-ratio scaling in `set_pixmap` (`pixmap.scaled(..., KeepAspectRatio)`).
  The scaled size is taken as an opaque positive input.
- Floating-point rounding. Quotients, the angle clamp and `% 360` are
  evaluated on exact values. Angles are `real`.
- Box values are integers. Non-numeric dict values, which the 10-inch
  comparison would reject with a caught `TypeError`, are not modelled.
- `AzimuthGauge.SetAngle` takes numbers only. Non-numeric arguments are not
  modelled: `%` raises `TypeError` for most of them and formats a string that
  holds one conversion spec.
- The gauges' needle and scale-mark endpoints (`math.cos`, `math.sin`,
  `radius * 0.8`) and the border rectangle.
- The capture thread's device handling, colour conversion, 30 ms pacing,
  `stop()` and the running flag. The thread is modelled only as the signals
  it emits, for a given sequence of read outcomes.
- The 10-inch constructor's camera probe, which is device I/O. Its outcome
  is a parameter of `TenInchVideo.Init`.
- The main windows and border frames. These hold layout constants, style
  sheets, timers, time-of-day polling and random simulated device data.
- The `print` in each exception handler.

=== FILE: arith.dfy ===
/** Integer helpers that model Python's numeric built-ins on exact values. */
module Arith {

  /** Python's `int(n / d)` for a positive divisor: the exact quotient
      truncated toward zero (not floored, so negative quotients round up). */
  function TruncDiv(n: int, d: int): (q: int)
    requires d > 0
    ensures n >= 0 ==> 0 <= q * d <= n < q * d + d
    ensures n < 0 ==> q * d - d < n <= q * d <= 0
  {
    if n >= 0 then
      var q := n / d;
      assert q * d + n % d == n;
      q
    else
      var m := (-n) / d;
      assert m * d + (-n) % d == -n;
      assert (-m) * d == -(m * d);
      -m
  }

  /** A product with a positive factor is negative only if the other factor is. */
  lemma NegativeProductFactor(a: int, d: int)
    requires d > 0
    requires a * d < 0
    ensures a < 0
  {
  }

  /** Truncation is monotone in the numerator. */
  lemma TruncDivMonotone(n1: int, n2: int, d: int)
    requires d > 0
    requires n1 <= n2
    ensures TruncDiv(n1, d) <= TruncDiv(n2, d)
  {
    var q1, q2 := TruncDiv(n1, d), TruncDiv(n2, d);
    assert q1 * d < q2 * d + d;
    assert (q1 - q2 - 1) * d == q1 * d - q2 * d - d;
    NegativeProductFactor(q1 - q2 - 1, d);
  }

  /** An exact multiple truncates to its factor. */
  lemma TruncDivExact(k: int, d: int)
    requires d > 0
    ensures TruncDiv(k * d, d) == k
  {
    var q := TruncDiv(k * d, d);
    // |k * d - q * d| < d in both sign cases
    assert (q - k - 1) * d == q * d - k * d - d;
    assert (k - q - 1) * d == k * d - q * d - d;
    assert q * d - d < k * d < q * d + d;
    NegativeProductFactor(q - k - 1, d);
    NegativeProductFactor(k - q - 1, d);
  }

  /** Python's `max(lo, min(hi, v))`. */
  function Clamp(v: int, lo: int, hi: int): (r: int)
    requires lo <= hi
    ensures lo <= r <= hi
    ensures lo <= v <= hi ==> r == v
    ensures v < lo ==> r == lo
    ensures v > hi ==> r == hi
  {
    if v < lo then lo else if v > hi then hi else v
  }
}

=== FILE: azimuth_gauge.dfy ===
/** The 7-inch azimuth gauge (`FullCircleAnglePicker`): a full circle centred
    in the widget with 24 scale marks and a needle. Only the stored angle and
    the integer layout are modelled. */
module AzimuthGauge {
  import opened Common
  import opened Gauge

  const InitialAngle: real := 39.0
  const Margin := 5
  /** `setMinimumSize` of the gauge. */
  const MinSide := 80

  function Init(dayMode: bool): (s: GaugeState)
    ensures s.angle == 39.0 && s.dayMode == dayMode
    ensures 0.0 <= s.angle < 360.0
  {
    GaugeState(InitialAngle, dayMode)
  }

  /** Whether `a` is a whole number of full turns. */
  predicate WholeTurns(a: real) {
    (a / 360.0).Floor as real == a / 360.0
  }

  /** Python's `a % 360` on an exact value: the remainder of floored division,
      so never negative. */
  function Wrap360(a: real): (r: real)
    ensures 0.0 <= r < 360.0
    ensures WholeTurns(a - r)
  {
    var k := (a / 360.0).Floor;
    var r := a - 360.0 * k as real;
    assert (a - r) / 360.0 == k as real;
    r
  }

  function SetAngle(s: GaugeState, angle: real): (r: GaugeState)
    ensures r.dayMode == s.dayMode
    ensures 0.0 <= r.angle < 360.0
    ensures WholeTurns(angle - r.angle)
  {
    s.(angle := Wrap360(angle))
  }

  /** `y.Floor` is the one integer `n` with `n <= y < n + 1`. */
  lemma FloorIs(y: real, n: int)
    requires n as real <= y < n as real + 1.0
    ensures y.Floor == n
  {
  }

  /** An angle already in [0, 360) is stored as it is. */
  lemma Wrap360Fixed(a: real)
    requires 0.0 <= a < 360.0
    ensures Wrap360(a) == a
  {
    FloorIs(a / 360.0, 0);
  }

  /** Angles a whole number of turns apart are stored alike. */
  lemma Wrap360Periodic(a: real, k: int)
    ensures Wrap360(a + 360.0 * k as real) == Wrap360(a)
  {
    var n := (a / 360.0).Floor;
    assert (a + 360.0 * k as real) / 360.0 == a / 360.0 + k as real;
    FloorIs((a + 360.0 * k as real) / 360.0, n + k);
  }

  /** Setting an angle and setting it again a number of turns further on
      store the same value; re-setting the stored value changes nothing. */
  lemma SetAngleTurns(s: GaugeState, a: real, k: int)
    ensures SetAngle(s, a + 360.0 * k as real) == SetAngle(s, a)
    ensures SetAngle(SetAngle(s, a), SetAngle(s, a).angle) == SetAngle(s, a)
  {
    Wrap360Periodic(a, k);
    Wrap360Fixed(Wrap360(a));
  }

  /** A negative angle is stored as its positive equivalent. */
  lemma NegativeAngleScenario()
    ensures SetAngle(Init(true), -90.0).angle == 270.0
  {
    FloorIs(-90.0 / 360.0, -1);
  }

  // ---------------------------------------------------------------------------
  // Layout

  /** The integer geometry of one repaint: circle centre and radius, the two
      diameters drawn as axes, the mark length and the label font size. */
  datatype Layout = Layout(
    centerX: int, centerY: int, radius: int,
    horizontalAxis: Segment, verticalAxis: Segment,
    markLength: int, fontSize: int)

  function LayoutOf(width: nat, height: nat): (l: Layout)
    ensures 0 <= width - 2 * l.centerX <= 1 && 0 <= height - 2 * l.centerY <= 1
    ensures l.centerX - l.radius >= Margin && l.centerY - l.radius >= Margin
    ensures l.centerX + l.radius <= width - Margin && l.centerY + l.radius <= height - Margin
    ensures l.centerX - l.radius == Margin || l.centerY - l.radius == Margin
    ensures l.horizontalAxis.from.y == l.horizontalAxis.to.y == l.centerY
    ensures l.horizontalAxis.from.x + l.horizontalAxis.to.x == 2 * l.centerX
    ensures l.horizontalAxis.to.x - l.horizontalAxis.from.x == 2 * l.radius
    ensures l.verticalAxis.from.x == l.verticalAxis.to.x == l.centerX
    ensures l.verticalAxis.from.y + l.verticalAxis.to.y == 2 * l.centerY
    ensures l.verticalAxis.to.y - l.verticalAxis.from.y == 2 * l.radius
    ensures 0 <= l.radius - 6 * l.markLength < 6
    ensures l.fontSize <= 8 && (l.fontSize == 8 || 0 <= l.radius - 10 * l.fontSize < 10)
    ensures 10 * l.fontSize <= l.radius
  {
    var cx := width / 2;
    var cy := height / 2;
    var radius := (if cx <= cy then cx else cy) - Margin;
    Layout(cx, cy, radius,
           Segment(Point(cx - radius, cy), Point(cx + radius, cy)),
           Segment(Point(cx, cy - radius), Point(cx, cy + radius)),
           radius / 6,
           if 8 <= radius / 10 then 8 else radius / 10)
  }

  /** At the minimum size the circle has a radius of at least 35 and labels a font of at least 3. */
  lemma MinimumLayout(width: nat, height: nat)
    requires width >= MinSide && height >= MinSide
    ensures var l := LayoutOf(width, height);
      l.radius >= 35 && 3 <= l.fontSize <= 8 && l.markLength >= 5
  {
  }

  /** A scale mark at `angle` degrees, drawn with the wider pen when `emphasised`. */
  datatype Mark = Mark(angle: int, emphasised: bool)

  /** The 24 marks, one every 15 degrees; every third one is emphasised. */
  function Marks(): (marks: seq<Mark>)
    ensures |marks| == 24
    ensures forall i, j :: 0 <= i < j < |marks| ==> marks[i].angle < marks[j].angle
    ensures forall i :: 0 <= i < |marks| ==> 0 <= marks[i].angle < 360 && marks[i].angle % 15 == 0
    ensures forall a :: 0 <= a < 360 && a % 15 == 0 ==> marks[a / 15].angle == a
    ensures forall i :: 0 <= i < |marks| ==> (marks[i].emphasised <==> marks[i].angle % 45 == 0)
  {
    seq(24, i requires 0 <= i < 24 => Mark(i * 15, i % 3 == 0))
  }

  function CountEmphasised(marks: seq<Mark>): (n: nat)
    ensures n <= |marks|
  {
    if |marks| == 0 then 0
    else (if marks[0].emphasised then 1 else 0) + CountEmphasised(marks[1..])
  }

  /** Counting from mark `k` on, when every third mark is emphasised. */
  lemma {:induction false} CountEveryThird(marks: seq<Mark>, k: nat)
    requires |marks| == 24 && k <= 24
    requires forall i :: 0 <= i < |marks| ==> (marks[i].emphasised <==> i % 3 == 0)
    ensures CountEmphasised(marks[k..]) == 8 - (k + 2) / 3
    decreases 24 - k
  {
    if k < 24 {
      var tail := marks[k..];
      assert tail[0] == marks[k] && tail[1..] == marks[k + 1..];
      CountEveryThird(marks, k + 1);
    }
  }

  /** Exactly eight marks, those at multiples of 45 degrees, are emphasised. */
  lemma EightEmphasisedMarks()
    ensures CountEmphasised(Marks()) == 8
  {
    var marks := Marks();
    CountEveryThird(marks, 0);
    assert marks[0..] == marks;
  }
}

=== FILE: common.dfy ===
/** Small wrapper and geometry types shared by every widget model. */
module Common {

  /** A Python value that may be `None`. */
  datatype Option<+T> = None | Some(value: T)

  /** The outcome of a Python call that either returns normally or lets an
      exception escape to its caller; `Err` carries the exception's name. */
  datatype Result<+T> = Ok(value: T) | Err(error: string)

  /** A pixel position in widget coordinates, y growing downward. */
  datatype Point = Point(x: int, y: int)

  /** A straight line drawn from `from` to `to`. */
  datatype Segment = Segment(from: Point, to: Point)
}

=== FILE: elevation_gauge.dfy ===
/** The elevation gauge (`RadianAnglePicker`) of both screen variants: a
    quarter arc in the widget's lower right corner with seven scale marks and
    a needle. Only the stored angle and the integer layout are modelled. */
module ElevationGauge {
  import opened Common
  import opened Gauge

  /** The argument of `set_angle`: a value the setter treats as a number
      (10-inch: `float()` accepts it; 7-inch: `min` compares it with 90), or
      one it does not. */
  datatype AngleInput = Number(value: real) | NonNumeric

  const InitialAngle: real := 45.0
  const Margin := 2
  /** `setMinimumSize` of the 10-inch and the 7-inch gauge. */
  const TenInchMinSide := 124
  const SevenInchMinSide := 80

  predicate InRange(a: real) {
    0.0 <= a <= 90.0
  }

  function Init(dayMode: bool): (s: GaugeState)
    ensures s.angle == 45.0 && s.dayMode == dayMode && InRange(s.angle)
  {
    GaugeState(InitialAngle, dayMode)
  }

  /** `max(0, min(90, a))`. */
  function ClampAngle(a: real): (r: real)
    ensures InRange(r)
    ensures InRange(a) ==> r == a
    ensures a < 0.0 ==> r == 0.0
    ensures a > 90.0 ==> r == 90.0
  {
    if a > 90.0 then 90.0 else if a < 0.0 then 0.0 else a
  }

  /** 10-inch `set_angle`: clamps a number; a value `float()` rejects is
      reported and leaves the gauge as it was. */
  function TenInchSetAngle(s: GaugeState, input: AngleInput): (r: GaugeState)
    ensures r.dayMode == s.dayMode
    ensures input.NonNumeric? ==> r == s
    ensures input.Number? ==> r.angle == ClampAngle(input.value)
    ensures InRange(s.angle) ==> InRange(r.angle)
  {
    match input
    case NonNumeric => s
    case Number(v) => s.(angle := ClampAngle(v))
  }

  /** 7-inch `set_angle`: clamps a number; a non-number makes `min` raise `TypeError`. */
  function SevenInchSetAngle(s: GaugeState, input: AngleInput): (r: Result<GaugeState>)
    ensures r.Ok? <==> input.Number?
    ensures r.Ok? ==> r.value.dayMode == s.dayMode && r.value.angle == ClampAngle(input.value)
    ensures r.Ok? ==> InRange(r.value.angle)
  {
    match input
    case NonNumeric => Err("TypeError")
    case Number(v) => Ok(s.(angle := ClampAngle(v)))
  }

  /** Setting the same angle twice is setting it once, on both variants. */
  lemma SetAngleIdempotent(s: GaugeState, input: AngleInput)
    ensures TenInchSetAngle(TenInchSetAngle(s, input), input) == TenInchSetAngle(s, input)
    ensures SevenInchSetAngle(s, input).Ok? ==>
      SevenInchSetAngle(SevenInchSetAngle(s, input).value, input) == SevenInchSetAngle(s, input)
  {
  }

  /** Re-setting the stored angle changes nothing. */
  lemma StoredAngleIsFixed(s: GaugeState, a: real)
    ensures var r := TenInchSetAngle(s, Number(a));
      TenInchSetAngle(r, Number(r.angle)) == r
  {
  }

  // ---------------------------------------------------------------------------
  // Layout

  /** The integer geometry of one repaint: the arc's radius and centre (its
      lower left corner), the two axis lines, the scale-mark length and the
      label font size. */
  datatype Layout = Layout(
    radius: int, centerX: int, centerY: int,
    horizontalAxis: Segment, verticalAxis: Segment,
    markLength: int, fontSize: int)

  function LayoutOf(width: int, height: int): (l: Layout)
    ensures l.centerX + l.radius == width - Margin && l.centerY == height - Margin
    ensures l.centerX >= Margin && l.centerY - l.radius >= Margin
    ensures l.horizontalAxis == Segment(Point(l.centerX, l.centerY), Point(l.centerX + l.radius, l.centerY))
    ensures l.verticalAxis == Segment(Point(l.centerX, l.centerY), Point(l.centerX, l.centerY - l.radius))
    ensures l.centerX == Margin || l.centerY - l.radius == Margin
    ensures l.radius >= 0 ==>
      && Margin <= l.horizontalAxis.from.x <= l.horizontalAxis.to.x <= width - Margin
      && l.horizontalAxis.from.y == l.horizontalAxis.to.y == height - Margin
      && Margin <= l.verticalAxis.to.y <= l.verticalAxis.from.y <= height - Margin
      && l.verticalAxis.from.x == l.verticalAxis.to.x >= Margin
    ensures 0 <= l.radius - 6 * l.markLength < 6
    ensures l.radius >= 0 ==> 0 <= l.markLength <= l.radius
    ensures l.fontSize <= 10 && (l.fontSize == 10 || 0 <= l.radius - 8 * l.fontSize < 8)
    ensures 8 * l.fontSize <= l.radius
  {
    var radius := (if width <= height then width else height) - 2 * Margin;
    var cx := width - Margin - radius;
    var cy := height - Margin;
    Layout(radius, cx, cy,
           Segment(Point(cx, cy), Point(cx + radius, cy)),
           Segment(Point(cx, cy), Point(cx, cy - radius)),
           radius / 6,
           if 10 <= radius / 8 then 10 else radius / 8)
  }

  /** At the 10-inch minimum size the font is always 10 and marks are at least 20 px. */
  lemma TenInchMinimumLayout(width: int, height: int)
    requires width >= TenInchMinSide && height >= TenInchMinSide
    ensures var l := LayoutOf(width, height);
      l.radius >= 120 && l.fontSize == 10 && l.markLength >= 20
  {
  }

  /** At the 7-inch minimum size the font is 9 or 10 and marks are at least 12 px. */
  lemma SevenInchMinimumLayout(width: int, height: int)
    requires width >= SevenInchMinSide && height >= SevenInchMinSide
    ensures var l := LayoutOf(width, height);
      l.radius >= 76 && 9 <= l.fontSize <= 10 && l.markLength >= 12
  {
  }

  /** The scale marks: one every 15 degrees from 0 to 90. */
  function MarkAngles(): (marks: seq<int>)
    ensures |marks| == 7
    ensures forall i, j :: 0 <= i < j < |marks| ==> marks[i] < marks[j]
    ensures forall a :: a in marks <==> 0 <= a <= 90 && a % 15 == 0
  {
    var marks := seq(7, i requires 0 <= i < 7 => 15 * i);
    forall a | 0 <= a <= 90 && a % 15 == 0
      ensures a in marks
    {
      var i := a / 15;
      assert a == 15 * i;
      assert marks[i] == a;
    }
    marks
  }
}

=== FILE: gauge.dfy ===
/** The state both angle gauges keep: the angle last set, in degrees, and the
    day flag that selects the palette. */
module Gauge {
  datatype GaugeState = GaugeState(angle: real, dayMode: bool)

  /** `set_day_mode`: only the palette flag changes. */
  function SetDayMode(s: GaugeState, day: bool): (r: GaugeState)
    ensures r.dayMode == day && r.angle == s.angle
  {
    s.(dayMode := day)
  }
}

=== FILE: overlay.dfy ===
/** The state of the video overlay widget and what one repaint of it draws:
    the background, the crosshair and the mil ruler along the top edge.
    Both screen variants share this module; they differ only in a `Config`. */
module Overlay {
  import opened Common
  import opened Arith

  /** Width and height of a pixmap, in pixels. */
  datatype Size = Size(width: int, height: int)

  /** The dimensions of a stored pixmap after it was scaled to the widget. */
  type FrameSize = s: Size | s.width > 0 && s.height > 0 witness Size(1, 1)

  /** A target box in the stored pixmap's pixel coordinates. */
  datatype Box = Box(x: int, y: int, w: int, h: int)

  /** The widget's fields: day flag, stored pixmap, stored box, error text. */
  datatype VideoState = VideoState(
    dayMode: bool,
    pixmap: Option<FrameSize>,
    box: Option<Box>,
    error: string)

  /** The constants by which the two screen variants differ. */
  datatype Config = Config(
    defaultCross: int,      // crosshair length without a box
    minCross: int,          // bounds of a box-driven crosshair length
    maxCross: int,
    majorTickLength: int,   // ruler tick at a multiple of 10 mil
    minorTickLength: int,   // every other ruler tick
    labelOffset: int)       // caption is drawn this far left of and below a major tick

  predicate ValidConfig(c: Config) {
    && 0 <= c.minCross <= c.maxCross
    && 0 <= c.defaultCross
    && c.majorTickLength != c.minorTickLength
  }

  type VariantConfig = c: Config | ValidConfig(c) witness Config(30, 15, 45, 10, 5, 15)

  /** Constants of the 10-inch panel. */
  const TenInch: VariantConfig := Config(30, 15, 45, 10, 5, 15)

  /** Constants of the 7-inch panel. */
  const SevenInch: VariantConfig := Config(20, 10, 30, 8, 4, 12)

  /** Mil-ruler constants, the same on both panels. */
  const FovMil := 349
  const MajorTickMil := 10
  const LabelMil := 50
  const MinMil := -200
  const MaxMil := 200

  datatype Crosshair = Crosshair(anchor: Point, length: int, horizontal: Segment, vertical: Segment)

  /** The text `str(mil)` drawn at `at`; `text` is the integer it spells. */
  datatype Caption = Caption(text: int, at: Point)

  /** A vertical ruler line from (x, 0) to (x, length), for ruler offset `mil`. */
  datatype Tick = Tick(mil: int, x: int, length: int, caption: Option<Caption>)

  datatype Background = VideoFrame | BlackPanel(banner: Option<string>)

  /** Everything one repaint draws. */
  datatype Drawing = Drawing(background: Background, crosshair: Crosshair, ticks: seq<Tick>)

  /** A state in which a frame and an error are never current together. */
  predicate FrameOrError(s: VideoState) {
    s.pixmap.None? || s.error == ""
  }

  /** The box lies inside the stored pixmap, or there is no pixmap to check against. */
  predicate BoxFits(b: Box, pixmap: Option<FrameSize>) {
    && b.x >= 0 && b.y >= 0 && b.w > 0 && b.h > 0
    && (pixmap.None? || (b.x + b.w <= pixmap.value.width && b.y + b.h <= pixmap.value.height))
  }

  // ---------------------------------------------------------------------------
  // Setters the two variants share

  /** `set_day_mode`: only the day flag changes. */
  function SetDayMode(s: VideoState, day: bool): (r: VideoState)
    ensures r.dayMode == day
    ensures r.pixmap == s.pixmap && r.box == s.box && r.error == s.error
  {
    s.(dayMode := day)
  }

  /** `set_error_message`: shows `message` and drops the frame; box and day flag are kept. */
  function SetErrorMessage(s: VideoState, message: string): (r: VideoState)
    ensures r.error == message && r.pixmap.None?
    ensures r.box == s.box && r.dayMode == s.dayMode
    ensures FrameOrError(r)
  {
    s.(error := message, pixmap := None)
  }

  // ---------------------------------------------------------------------------
  // Background

  function BackgroundOf(s: VideoState): (bg: Background)
    ensures bg.VideoFrame? <==> s.pixmap.Some? && s.error == ""
    ensures bg.BlackPanel? ==> (bg.banner.Some? <==> s.error != "")
    ensures bg.BlackPanel? && bg.banner.Some? ==> bg.banner.value == s.error
  {
    if s.pixmap.Some? && s.error == "" then VideoFrame
    else if s.error != "" then BlackPanel(Some(s.error))
    else BlackPanel(None)
  }

  // ---------------------------------------------------------------------------
  // Crosshair

  /** One anchor coordinate: the box centre `c` in pixmap pixels, scaled by
      `widgetDim / frameDim` and truncated, or left unscaled without a pixmap. */
  function ScaleCoord(c: int, widgetDim: int, frameDim: Option<int>): (r: int)
    requires frameDim.Some? ==> frameDim.value > 0
    ensures frameDim.None? ==> r == c
    ensures frameDim.Some? && c * widgetDim >= 0 ==>
      0 <= r * frameDim.value <= c * widgetDim < r * frameDim.value + frameDim.value
    ensures frameDim.Some? && c * widgetDim < 0 ==>
      r * frameDim.value - frameDim.value < c * widgetDim <= r * frameDim.value <= 0
  {
    match frameDim
    case None => c
    case Some(d) => TruncDiv(c * widgetDim, d)
  }

  function FrameWidth(pixmap: Option<FrameSize>): (r: Option<int>)
    ensures r.Some? <==> pixmap.Some?
    ensures r.Some? ==> r.value > 0
  {
    match pixmap
    case None => None
    case Some(p) => Some(p.width)
  }

  function FrameHeight(pixmap: Option<FrameSize>): (r: Option<int>)
    ensures r.Some? <==> pixmap.Some?
    ensures r.Some? ==> r.value > 0
  {
    match pixmap
    case None => None
    case Some(p) => Some(p.height)
  }

  /** Where the crosshair is centred. */
  function Anchor(box: Option<Box>, pixmap: Option<FrameSize>, width: int, height: int): (p: Point)
    ensures box.None? ==> 0 <= width - 2 * p.x <= 1 && 0 <= height - 2 * p.y <= 1
    ensures box.Some? ==>
      p.x == ScaleCoord(box.value.x + box.value.w / 2, width, FrameWidth(pixmap)) &&
      p.y == ScaleCoord(box.value.y + box.value.h / 2, height, FrameHeight(pixmap))
  {
    match box
    case None => Point(width / 2, height / 2)
    case Some(b) =>
      Point(ScaleCoord(b.x + b.w / 2, width, FrameWidth(pixmap)),
            ScaleCoord(b.y + b.h / 2, height, FrameHeight(pixmap)))
  }

  /** The crosshair length: fixed without a box, a clamp of the box's size with one. */
  function CrossLength(cfg: VariantConfig, box: Option<Box>): (l: int)
    ensures box.None? ==> l == cfg.defaultCross
    ensures box.Some? ==> cfg.minCross <= l <= cfg.maxCross
    ensures box.Some? && cfg.minCross <= (box.value.w + box.value.h) / 4 <= cfg.maxCross ==>
      l == (box.value.w + box.value.h) / 4
    ensures box.Some? && (box.value.w + box.value.h) / 4 < cfg.minCross ==> l == cfg.minCross
    ensures box.Some? && (box.value.w + box.value.h) / 4 > cfg.maxCross ==> l == cfg.maxCross
    ensures l >= 0
  {
    match box
    case None => cfg.defaultCross
    case Some(b) => Clamp((b.w + b.h) / 4, cfg.minCross, cfg.maxCross)
  }

  /** Two perpendicular segments through `anchor`, each reaching `length / 2` to either side. */
  function CrosshairAt(anchor: Point, length: int): (c: Crosshair)
    requires length >= 0
    ensures c.anchor == anchor && c.length == length
    ensures c.horizontal.from.y == anchor.y && c.horizontal.to.y == anchor.y
    ensures c.horizontal.from.x + c.horizontal.to.x == 2 * anchor.x
    ensures length - 1 <= c.horizontal.to.x - c.horizontal.from.x <= length
    ensures c.vertical.from.x == anchor.x && c.vertical.to.x == anchor.x
    ensures c.vertical.from.y + c.vertical.to.y == 2 * anchor.y
    ensures length - 1 <= c.vertical.to.y - c.vertical.from.y <= length
  {
    var half := length / 2;
    Crosshair(anchor, length,
              Segment(Point(anchor.x - half, anchor.y), Point(anchor.x + half, anchor.y)),
              Segment(Point(anchor.x, anchor.y - half), Point(anchor.x, anchor.y + half)))
  }

  // ---------------------------------------------------------------------------
  // Mil ruler

  /** `int(anchorX + mil * width / 349)`, evaluated on the exact rational. */
  function TickX(anchorX: int, mil: int, width: int): int {
    TruncDiv(FovMil * anchorX + mil * width, FovMil)
  }

  predicate InView(x: int, width: int) {
    0 <= x <= width
  }

  /** The tick drawn for offset `mil` at position `x`. */
  function MakeTick(cfg: VariantConfig, mil: int, x: int): Tick {
    if mil % MajorTickMil == 0 then
      var caption := if mil % LabelMil == 0
        then Some(Caption(mil, Point(x - cfg.labelOffset, cfg.majorTickLength + cfg.labelOffset)))
        else None;
      Tick(mil, x, cfg.majorTickLength, caption)
    else
      Tick(mil, x, cfg.minorTickLength, None)
  }

  /** The length and caption rules every tick follows. */
  predicate TickShape(cfg: VariantConfig, t: Tick) {
    && (t.length == cfg.majorTickLength <==> t.mil % MajorTickMil == 0)
    && (t.length != cfg.majorTickLength ==> t.length == cfg.minorTickLength)
    && (t.caption.Some? <==> t.mil % LabelMil == 0)
    && (t.caption.Some? ==> t.length == cfg.majorTickLength && t.caption.value.text == t.mil)
    && (t.caption.Some? ==>
          t.caption.value.at == Point(t.x - cfg.labelOffset, cfg.majorTickLength + cfg.labelOffset))
  }

  /** What the ruler promises of each tick it draws. */
  predicate GoodTick(cfg: VariantConfig, anchorX: int, width: int, t: Tick) {
    && MinMil <= t.mil <= MaxMil
    && t.x == TickX(anchorX, t.mil, width)
    && InView(t.x, width)
    && TickShape(cfg, t)
  }

  lemma MakeTickShape(cfg: VariantConfig, mil: int, x: int)
    ensures var t := MakeTick(cfg, mil, x);
      t.mil == mil && t.x == x && TickShape(cfg, t)
  {
    if mil % LabelMil == 0 {
      assert mil % MajorTickMil == 0;
    }
  }

  /** A tick made for an offset in range whose position is in view keeps every promise. */
  lemma MakeTickGood(cfg: VariantConfig, anchorX: int, width: int, mil: int)
    requires MinMil <= mil <= MaxMil
    requires InView(TickX(anchorX, mil, width), width)
    ensures GoodTick(cfg, anchorX, width, MakeTick(cfg, mil, TickX(anchorX, mil, width)))
  {
    MakeTickShape(cfg, mil, TickX(anchorX, mil, width));
  }

  /** The ticks for offsets `mil`, `mil + 1`, ..., `MaxMil` that fall inside the widget. */
  function RulerFrom(cfg: VariantConfig, anchorX: int, width: int, mil: int): (ticks: seq<Tick>)
    requires MinMil <= mil <= MaxMil + 1
    ensures forall i :: 0 <= i < |ticks| ==> mil <= ticks[i].mil && GoodTick(cfg, anchorX, width, ticks[i])
    ensures forall i, j :: 0 <= i < j < |ticks| ==> ticks[i].mil < ticks[j].mil
    decreases MaxMil + 1 - mil
  {
    if mil > MaxMil then []
    else
      var x := TickX(anchorX, mil, width);
      var rest := RulerFrom(cfg, anchorX, width, mil + 1);
      if !InView(x, width) then rest
      else
        MakeTickGood(cfg, anchorX, width, mil);
        [MakeTick(cfg, mil, x)] + rest
  }

  /** The whole ruler, offsets -200 to 200 mil around the crosshair. */
  function Ruler(cfg: VariantConfig, anchorX: int, width: int): seq<Tick> {
    RulerFrom(cfg, anchorX, width, MinMil)
  }

  /** Some tick in `ticks` stands for offset `m`. */
  predicate HasTickFor(ticks: seq<Tick>, m: int) {
    exists i :: 0 <= i < |ticks| && ticks[i].mil == m
  }

  lemma HasTickForCons(t: Tick, rest: seq<Tick>, m: int)
    ensures HasTickFor([t] + rest, m) <==> t.mil == m || HasTickFor(rest, m)
  {
    var ticks := [t] + rest;
    assert ticks[0] == t;
    if HasTickFor(rest, m) {
      var i :| 0 <= i < |rest| && rest[i].mil == m;
      assert ticks[i + 1] == rest[i];
    }
    if HasTickFor(ticks, m) && t.mil != m {
      var i :| 0 <= i < |ticks| && ticks[i].mil == m;
      assert i > 0 && ticks[i] == rest[i - 1];
    }
  }

  /** Which offsets at or after `mil` get a tick: exactly those whose position is in view. */
  lemma {:induction false} RulerFromComplete(cfg: VariantConfig, anchorX: int, width: int, mil: int, m: int)
    requires MinMil <= mil <= MaxMil + 1
    requires mil <= m <= MaxMil
    ensures HasTickFor(RulerFrom(cfg, anchorX, width, mil), m) <==> InView(TickX(anchorX, m, width), width)
    decreases MaxMil + 1 - mil
  {
    var x := TickX(anchorX, mil, width);
    var rest := RulerFrom(cfg, anchorX, width, mil + 1);
    if m == mil {
      assert !HasTickFor(rest, m);
    } else {
      RulerFromComplete(cfg, anchorX, width, mil + 1, m);
    }
    if InView(x, width) {
      assert RulerFrom(cfg, anchorX, width, mil) == [MakeTick(cfg, mil, x)] + rest;
      HasTickForCons(MakeTick(cfg, mil, x), rest, m);
    } else {
      assert RulerFrom(cfg, anchorX, width, mil) == rest;
    }
  }

  /** A tick is drawn for offset `m` exactly when its position lies in [0, width]. */
  lemma RulerComplete(cfg: VariantConfig, anchorX: int, width: int, m: int)
    requires MinMil <= m <= MaxMil
    ensures HasTickFor(Ruler(cfg, anchorX, width), m) <==> 0 <= TickX(anchorX, m, width) <= width
  {
    RulerFromComplete(cfg, anchorX, width, MinMil, m);
  }

  /** Tick positions grow with the offset when the widget width is not negative. */
  lemma TickXMonotone(anchorX: int, m1: int, m2: int, width: int)
    requires width >= 0 && m1 <= m2
    ensures TickX(anchorX, m1, width) <= TickX(anchorX, m2, width)
  {
    assert m2 * width - m1 * width == (m2 - m1) * width;
    assert (m2 - m1) * width >= 0;
    TruncDivMonotone(FovMil * anchorX + m1 * width, FovMil * anchorX + m2 * width, FovMil);
  }

  /** On a widget of non-negative width the ticks run left to right. */
  lemma RulerLeftToRight(cfg: VariantConfig, anchorX: int, width: int)
    requires width >= 0
    ensures var ticks := Ruler(cfg, anchorX, width);
      forall i, j :: 0 <= i < j < |ticks| ==> ticks[i].x <= ticks[j].x
  {
    var ticks := Ruler(cfg, anchorX, width);
    forall i, j | 0 <= i < j < |ticks|
      ensures ticks[i].x <= ticks[j].x
    {
      TickXMonotone(anchorX, ticks[i].mil, ticks[j].mil, width);
    }
  }

  /** The zero tick sits exactly under the crosshair, and it is drawn and
      labelled whenever the crosshair is inside the widget. */
  lemma ZeroTickAtCrosshair(cfg: VariantConfig, anchorX: int, width: int)
    requires 0 <= anchorX <= width
    ensures var ticks := Ruler(cfg, anchorX, width);
      exists i :: 0 <= i < |ticks| && ticks[i].mil == 0 && ticks[i].x == anchorX &&
        ticks[i].caption.Some? && ticks[i].caption.value.text == 0
  {
    TruncDivExact(anchorX, FovMil);
    assert TickX(anchorX, 0, width) == anchorX;
    RulerComplete(cfg, anchorX, width, 0);
  }

  // ---------------------------------------------------------------------------
  // Repaint

  /** One repaint of a widget of the given size. The day flag plays no part. */
  function Paint(cfg: VariantConfig, s: VideoState, width: nat, height: nat): (o: Drawing)
    ensures o.background.VideoFrame? <==> s.pixmap.Some? && s.error == ""
    ensures o.background.BlackPanel? ==> (o.background.banner.Some? <==> s.error != "")
    ensures o.background == BackgroundOf(s)
    ensures o.crosshair.anchor == Anchor(s.box, s.pixmap, width, height)
    ensures s.box.None? ==> o.crosshair.length == cfg.defaultCross
    ensures s.box.Some? ==> cfg.minCross <= o.crosshair.length <= cfg.maxCross
    ensures o.crosshair == CrosshairAt(o.crosshair.anchor, CrossLength(cfg, s.box))
    ensures o.ticks == Ruler(cfg, o.crosshair.anchor.x, width)
    ensures forall i :: 0 <= i < |o.ticks| ==> 0 <= o.ticks[i].x <= width
  {
    var anchor := Anchor(s.box, s.pixmap, width, height);
    var cross := CrosshairAt(anchor, CrossLength(cfg, s.box));
    Drawing(BackgroundOf(s), cross, Ruler(cfg, anchor.x, width))
  }

  /** The day flag does not change what the video widget draws. */
  lemma PaintIgnoresDayMode(cfg: VariantConfig, s: VideoState, day: bool, width: nat, height: nat)
    ensures Paint(cfg, s.(dayMode := day), width, height) == Paint(cfg, s, width, height)
  {
  }

  /** A box that fits the stored pixmap puts the crosshair inside the widget. */
  lemma FittingBoxAnchorInside(s: VideoState, width: nat, height: nat)
    requires s.box.Some? && BoxFits(s.box.value, s.pixmap)
    requires s.pixmap.Some?
    ensures var p := Anchor(s.box, s.pixmap, width, height);
      0 <= p.x <= width && 0 <= p.y <= height
  {
    var b, f := s.box.value, s.pixmap.value;
    var p := Anchor(s.box, s.pixmap, width, height);
    CentreBelow(b.x, b.w, f.width, width, p.x);
    CentreBelow(b.y, b.h, f.height, height, p.y);
  }

  /** The scaled centre of an interval [lo, lo + len) of a frame of size `frame`
      lies in [0, widget]. */
  lemma CentreBelow(lo: int, len: int, frame: int, widget: nat, r: int)
    requires 0 <= lo && 0 < len && lo + len <= frame
    requires r == TruncDiv((lo + len / 2) * widget, frame)
    ensures 0 <= r <= widget
  {
    var c := lo + len / 2;
    assert 0 <= c < frame;
    ScaleBetween(c, frame, widget);
    TruncDivMonotone(c * widget, widget * frame, frame);
    TruncDivExact(widget, frame);
  }

  lemma ScaleBetween(c: int, frame: int, widget: nat)
    requires 0 <= c <= frame
    ensures 0 <= c * widget <= widget * frame
  {
    assert widget * frame - c * widget == (frame - c) * widget;
  }
}

=== FILE: video_input.dfy ===
/** What reaches the video widget from outside: the box feed, the frames and
    errors the capture thread emits, and the day flag. */
module VideoInput {
  import opened Common
  import opened Overlay

  /** The argument of `set_bounding_box`: `None`, or a dict of integers. */
  datatype BoxInput = NoBox | BoxDict(fields: map<string, int>)

  /** Python truthiness of the argument: `None` and the empty dict are false. */
  predicate Truthy(b: BoxInput) {
    b.BoxDict? && b.fields != map[]
  }

  /** Reads keys "x", "y", "w", "h" in that order; the first missing one raises `KeyError`. */
  function ReadBox(fields: map<string, int>): (r: Result<Box>)
    ensures r.Ok? <==> "x" in fields && "y" in fields && "w" in fields && "h" in fields
    ensures r.Ok? ==> r.value == Box(fields["x"], fields["y"], fields["w"], fields["h"])
    ensures r.Err? ==> r.error == "KeyError"
  {
    if "x" !in fields || "y" !in fields || "w" !in fields || "h" !in fields then Err("KeyError")
    else Ok(Box(fields["x"], fields["y"], fields["w"], fields["h"]))
  }

  /** The argument of `set_pixmap`: a null `QPixmap`, a frame (given by the
      size it has once scaled to the widget), or a value that is no pixmap at
      all, with the text of the exception that calling `isNull()` on it raises. */
  datatype FrameInput = NullFrame | Frame(scaled: FrameSize) | NotAPixmap(reason: string)

  /** One call into the widget. */
  datatype Event =
    | FrameUpdated(frame: FrameInput)
    | ErrorOccurred(message: string)
    | BoxUpdated(box: BoxInput)
    | DayModeChanged(day: bool)

  /** The capture thread reports every failure as an error followed by a null frame. */
  function FailureSignals(message: string): seq<Event> {
    [ErrorOccurred(message), FrameUpdated(NullFrame)]
  }

  /** An event the capture thread can emit (it only ever emits real pixmaps). */
  predicate FromCapture(e: Event) {
    || (e.FrameUpdated? && !e.frame.NotAPixmap?)
    || e.ErrorOccurred?
  }

  /** The frames, in order, that the events hand to `set_pixmap`. */
  function EmittedFrames(events: seq<Event>): seq<FrameSize> {
    if |events| == 0 then []
    else
      (if events[0].FrameUpdated? && events[0].frame.Frame? then [events[0].frame.scaled] else [])
      + EmittedFrames(events[1..])
  }

  lemma {:induction false} EmittedFramesAppend(a: seq<Event>, b: seq<Event>)
    ensures EmittedFrames(a + b) == EmittedFrames(a) + EmittedFrames(b)
    decreases |a|
  {
    if |a| == 0 {
      assert a + b == b;
    } else {
      assert (a + b)[0] == a[0];
      assert (a + b)[1..] == a[1..] + b;
      EmittedFramesAppend(a[1..], b);
    }
  }

  /** How many error signals the events carry. */
  function CountErrors(events: seq<Event>): nat {
    if |events| == 0 then 0
    else (if events[0].ErrorOccurred? then 1 else 0) + CountErrors(events[1..])
  }

  lemma {:induction false} CountErrorsAppend(a: seq<Event>, b: seq<Event>)
    ensures CountErrors(a + b) == CountErrors(a) + CountErrors(b)
    decreases |a|
  {
    if |a| == 0 {
      assert a + b == b;
    } else {
      assert (a + b)[0] == a[0];
      assert (a + b)[1..] == a[1..] + b;
      CountErrorsAppend(a[1..], b);
    }
  }

  /** Every error signal is followed at once by a null frame. */
  predicate ErrorsThenNullFrame(events: seq<Event>) {
    forall i :: 0 <= i < |events| && events[i].ErrorOccurred? ==>
      i + 1 < |events| && events[i + 1] == FrameUpdated(NullFrame)
  }

  lemma ErrorsThenNullFrameAppend(a: seq<Event>, b: seq<Event>)
    requires ErrorsThenNullFrame(a) && ErrorsThenNullFrame(b)
    ensures ErrorsThenNullFrame(a + b)
  {
    forall i | 0 <= i < |a + b| && (a + b)[i].ErrorOccurred?
      ensures i + 1 < |a + b| && (a + b)[i + 1] == FrameUpdated(NullFrame)
    {
      if i < |a| {
        assert a[i].ErrorOccurred?;
      } else {
        assert b[i - |a|].ErrorOccurred?;
      }
    }
  }

  /** Every event is one the capture thread can emit. */
  predicate AllFromCapture(events: seq<Event>) {
    forall i :: 0 <= i < |events| ==> FromCapture(events[i])
  }

  lemma AllFromCaptureAppend(a: seq<Event>, b: seq<Event>)
    requires AllFromCapture(a) && AllFromCapture(b)
    ensures AllFromCapture(a + b)
  {
    forall i | 0 <= i < |a + b|
      ensures FromCapture((a + b)[i])
    {
      if i < |a| {
        assert (a + b)[i] == a[i];
      } else {
        assert (a + b)[i] == b[i - |a|];
      }
    }
  }

  /** Every error signal carries `message`. */
  predicate ErrorsCarry(events: seq<Event>, message: string) {
    forall i :: 0 <= i < |events| && events[i].ErrorOccurred? ==> events[i].message == message
  }

  lemma ErrorsCarryAppend(a: seq<Event>, b: seq<Event>, message: string)
    requires ErrorsCarry(a, message) && ErrorsCarry(b, message)
    ensures ErrorsCarry(a + b, message)
  {
    forall i | 0 <= i < |a + b| && (a + b)[i].ErrorOccurred?
      ensures (a + b)[i].message == message
    {
      if i < |a| {
        assert (a + b)[i] == a[i];
      } else {
        assert (a + b)[i] == b[i - |a|];
      }
    }
  }

  /** An event that passes `set_pixmap` something that is a pixmap. */
  predicate PixmapTyped(e: Event) {
    !(e.FrameUpdated? && e.frame.NotAPixmap?)
  }
}

=== FILE: video_seven_inch.dfy ===
/** The 7-inch video widget: its setters, which store any box they are given
    and let exceptions escape, and the signals its capture thread emits. */
module SevenInchVideo {
  import opened Common
  import opened Overlay
  import opened VideoInput

  const DisconnectedMessage := "Camera disconnected"
  const ReadFailedMessage := "Failed to read frame"

  /** The constructor: no frame, no box, no error. */
  function Init(dayMode: bool): (s: VideoState)
    ensures s.dayMode == dayMode && s.pixmap.None? && s.box.None? && s.error == ""
  {
    VideoState(dayMode, None, None, "")
  }

  /** Stores any box read from a non-empty dict, unchecked; `None` or an empty
      dict clears it; a missing key raises `KeyError` before anything changes. */
  function SetBoundingBox(s: VideoState, input: BoxInput): (r: Result<VideoState>)
    ensures r.Ok? <==> !Truthy(input) || ReadBox(input.fields).Ok?
    ensures r.Ok? ==> r.value.pixmap == s.pixmap && r.value.error == s.error && r.value.dayMode == s.dayMode
    ensures r.Ok? ==> (r.value.box.Some? <==> Truthy(input))
    ensures r.Ok? && Truthy(input) ==>
      r.value.box == Some(Box(input.fields["x"], input.fields["y"], input.fields["w"], input.fields["h"]))
    ensures r.Err? ==> r.error == "KeyError"
  {
    if !Truthy(input) then Ok(s.(box := None))
    else
      match ReadBox(input.fields)
      case Err(e) => Err(e)
      case Ok(b) => Ok(s.(box := Some(b)))
  }

  /** Stores a frame (or none for a null one) and clears the error; an
      argument that is no pixmap raises `AttributeError` before anything changes. */
  function SetPixmap(s: VideoState, f: FrameInput): (r: Result<VideoState>)
    ensures r.Ok? <==> !f.NotAPixmap?
    ensures r.Ok? ==> r.value.box == s.box && r.value.dayMode == s.dayMode && r.value.error == ""
    ensures r.Ok? ==> (r.value.pixmap.Some? <==> f.Frame?)
    ensures r.Ok? && f.Frame? ==> r.value.pixmap == Some(f.scaled)
  {
    match f
    case NullFrame => Ok(s.(pixmap := None, error := ""))
    case Frame(size) => Ok(s.(pixmap := Some(size), error := ""))
    case NotAPixmap(_) => Err("AttributeError")
  }

  function Apply(s: VideoState, e: Event): Result<VideoState> {
    match e
    case FrameUpdated(f) => SetPixmap(s, f)
    case ErrorOccurred(m) => Ok(SetErrorMessage(s, m))
    case BoxUpdated(b) => SetBoundingBox(s, b)
    case DayModeChanged(d) => Ok(SetDayMode(s, d))
  }

  /** Delivers the events in order; the first exception ends the sequence. */
  function ApplyAll(s: VideoState, events: seq<Event>): Result<VideoState>
    decreases |events|
  {
    if |events| == 0 then Ok(s)
    else
      match Apply(s, events[0])
      case Err(e) => Err(e)
      case Ok(next) => ApplyAll(next, events[1..])
  }

  /** Here no setter can break "frame or error, never both": the one call that
      could raises instead. */
  lemma {:induction false} FrameOrErrorPreserved(s: VideoState, events: seq<Event>)
    requires FrameOrError(s)
    ensures ApplyAll(s, events).Ok? ==> FrameOrError(ApplyAll(s, events).value)
    decreases |events|
  {
    if |events| > 0 {
      var step := Apply(s, events[0]);
      if step.Ok? {
        assert FrameOrError(step.value);
        FrameOrErrorPreserved(step.value, events[1..]);
      }
    }
  }

  /** A box is stored however far it lies outside the frame; a box left of
      the widget puts the crosshair there too, and the ruler's zero tick is
      not drawn. */
  lemma NegativeBoxScenario()
    ensures var r := SetBoundingBox(Init(true), BoxDict(map["x" := -100, "y" := 0, "w" := 10, "h" := 10]));
      r.Ok? && r.value.box == Some(Box(-100, 0, 10, 10)) &&
      var o := Paint(SevenInch, r.value, 100, 100);
      o.crosshair.anchor == Point(-95, 5) && o.crosshair.length == 10 && !HasTickFor(o.ticks, 0)
  {
    var fields := map["x" := -100, "y" := 0, "w" := 10, "h" := 10];
    assert ReadBox(fields) == Ok(Box(-100, 0, 10, 10));
    Arith.TruncDivExact(-95, FovMil);
    RulerComplete(SevenInch, -95, 100, 0);
  }

  // ---------------------------------------------------------------------------
  // The capture thread, as the signals it emits

  /** What one loop iteration finds: the device closed, a failed read, or a frame. */
  datatype ReadOutcome = Grabbed(frame: FrameSize) | ReadFailed | Disconnected

  /** The frames the device delivered before it closed, in order. */
  function GrabbedFrames(outcomes: seq<ReadOutcome>): seq<FrameSize> {
    if |outcomes| == 0 || outcomes[0].Disconnected? then []
    else (if outcomes[0].Grabbed? then [outcomes[0].frame] else []) + GrabbedFrames(outcomes[1..])
  }

  /** The failures the run meets: each failed read before the device closed,
      and the closing itself. */
  function Failures(outcomes: seq<ReadOutcome>): nat {
    if |outcomes| == 0 then 0
    else if outcomes[0].Disconnected? then 1
    else (if outcomes[0].ReadFailed? then 1 else 0) + Failures(outcomes[1..])
  }

  /** The signals of one thread run over the given iterations; a closed device ends the run. */
  function CaptureSignals(outcomes: seq<ReadOutcome>): (events: seq<Event>)
    ensures forall i :: 0 <= i < |events| ==> FromCapture(events[i])
    ensures |outcomes| > 0 ==> |events| > 0
    ensures ErrorsThenNullFrame(events)
    ensures |outcomes| > 0 && outcomes[0].Disconnected? ==> events == FailureSignals(DisconnectedMessage)
    ensures EmittedFrames(events) == GrabbedFrames(outcomes)
    ensures CountErrors(events) == Failures(outcomes)
  {
    if |outcomes| == 0 then []
    else
      match outcomes[0]
      case Disconnected =>
        var events := FailureSignals(DisconnectedMessage);
        assert events[1..] == [FrameUpdated(NullFrame)] && events[1..][1..] == [];
        events
      case ReadFailed =>
        var first := FailureSignals(ReadFailedMessage);
        var rest := CaptureSignals(outcomes[1..]);
        assert first[1..] == [FrameUpdated(NullFrame)] && first[1..][1..] == [];
        ErrorsThenNullFrameAppend(first, rest);
        EmittedFramesAppend(first, rest);
        CountErrorsAppend(first, rest);
        first + rest
      case Grabbed(f) =>
        var first := [FrameUpdated(Frame(f))];
        var rest := CaptureSignals(outcomes[1..]);
        assert first[1..] == [];
        ErrorsThenNullFrameAppend(first, rest);
        EmittedFramesAppend(first, rest);
        CountErrorsAppend(first, rest);
        first + rest
  }

  /** While the device stays open, the run's signals are those of each
      iteration in turn. */
  lemma {:induction false} CaptureSignalsAppend(a: seq<ReadOutcome>, b: seq<ReadOutcome>)
    requires forall i :: 0 <= i < |a| ==> !a[i].Disconnected?
    ensures CaptureSignals(a + b) == CaptureSignals(a) + CaptureSignals(b)
    decreases |a|
  {
    if |a| == 0 {
      assert a + b == b;
    } else {
      assert (a + b)[0] == a[0];
      assert (a + b)[1..] == a[1..] + b;
      CaptureSignalsAppend(a[1..], b);
    }
  }

  /** One iteration: a grabbed frame is emitted as it is; a failed read emits
      "Failed to read frame" and a null frame; a closed device emits "Camera
      disconnected" and a null frame, and nothing after it is emitted. */
  lemma CaptureSignalsSingle(f: FrameSize, later: seq<ReadOutcome>)
    ensures CaptureSignals([Grabbed(f)]) == [FrameUpdated(Frame(f))]
    ensures CaptureSignals([ReadFailed]) == [ErrorOccurred(ReadFailedMessage), FrameUpdated(NullFrame)]
    ensures CaptureSignals([Disconnected] + later) == [ErrorOccurred(DisconnectedMessage), FrameUpdated(NullFrame)]
  {
    assert [Grabbed(f)][1..] == [] && [ReadFailed][1..] == [];
    assert ([Disconnected] + later)[0] == Disconnected;
  }

  /** The capture thread's signals never raise in the widget. */
  lemma {:induction false} CaptureSignalsAccepted(s: VideoState, events: seq<Event>)
    requires forall i :: 0 <= i < |events| ==> FromCapture(events[i])
    ensures ApplyAll(s, events).Ok?
    decreases |events|
  {
    if |events| > 0 {
      assert FromCapture(events[0]);
      CaptureSignalsAccepted(Apply(s, events[0]).value, events[1..]);
    }
  }

  lemma {:induction false} ApplyAllAppend(s: VideoState, a: seq<Event>, b: seq<Event>)
    requires ApplyAll(s, a).Ok?
    ensures ApplyAll(s, a + b) == ApplyAll(ApplyAll(s, a).value, b)
    decreases |a|
  {
    if |a| > 0 {
      assert (a + b)[0] == a[0];
      assert (a + b)[1..] == a[1..] + b;
      ApplyAllAppend(Apply(s, a[0]).value, a[1..], b);
    } else {
      assert a + b == b;
    }
  }

  /** Delivering a failure leaves no frame and no error text behind: the
      null frame that follows the error wipes the banner at once. */
  lemma FailureLeavesBlankPanel(s: VideoState, message: string)
    ensures ApplyAll(s, FailureSignals(message)).Ok?
    ensures var r := ApplyAll(s, FailureSignals(message)).value;
      r.pixmap.None? && r.error == "" && r.box == s.box && r.dayMode == s.dayMode
  {
    var events := FailureSignals(message);
    var shown := SetErrorMessage(s, message);
    assert events[1..] == [FrameUpdated(NullFrame)] && events[1..][1..] == [];
    assert ApplyAll(s, events) == ApplyAll(shown, events[1..]);
    assert ApplyAll(shown, events[1..]) == ApplyAll(shown.(pixmap := None, error := ""), []);
  }

  /** Whatever the capture thread emits, once it has emitted anything the
      error text is empty: no capture error stays on screen. */
  lemma {:induction false} CaptureRunClearsError(s: VideoState, outcomes: seq<ReadOutcome>)
    requires |outcomes| > 0
    ensures ApplyAll(s, CaptureSignals(outcomes)).Ok?
    ensures ApplyAll(s, CaptureSignals(outcomes)).value.error == ""
    decreases |outcomes|
  {
    var rest := CaptureSignals(outcomes[1..]);
    match outcomes[0]
    case Disconnected =>
      FailureLeavesBlankPanel(s, DisconnectedMessage);
    case ReadFailed =>
      var first := FailureSignals(ReadFailedMessage);
      FailureLeavesBlankPanel(s, ReadFailedMessage);
      ApplyAllAppend(s, first, rest);
      if |outcomes| > 1 {
        CaptureRunClearsError(ApplyAll(s, first).value, outcomes[1..]);
      } else {
        assert rest == [];
      }
    case Grabbed(f) =>
      var first := [FrameUpdated(Frame(f))];
      assert first[1..] == [];
      assert ApplyAll(s, first) == Ok(s.(pixmap := Some(f), error := ""));
      ApplyAllAppend(s, first, rest);
      if |outcomes| > 1 {
        CaptureRunClearsError(ApplyAll(s, first).value, outcomes[1..]);
      } else {
        assert rest == [];
      }
  }
}

=== FILE: video_ten_inch.dfy ===
/** The 10-inch video widget: its setters, which validate the box and catch
    their own exceptions, and the signals its capture thread emits. */
module TenInchVideo {
  import opened Common
  import opened Overlay
  import opened VideoInput

  const CameraUnavailable := "Camera không khả dụng"
  const PixmapErrorPrefix := "Lỗi pixmap: "
  const OpenFailedMessage := "Không tìm thấy hoặc không mở được camera"
  const ReadFailedMessage := "Không đọc được frame video"
  const ThreadErrorPrefix := "Lỗi luồng video: "

  /** The constructor; `cameraOpens` is the outcome of its probe of the capture device. */
  function Init(dayMode: bool, cameraOpens: bool): (s: VideoState)
    ensures s.dayMode == dayMode && s.pixmap.None? && s.box.None?
    ensures s.error == "" <==> cameraOpens
    ensures FrameOrError(s)
  {
    VideoState(dayMode, None, None, if cameraOpens then "" else CameraUnavailable)
  }

  /** Stores a box only if it lies inside the stored pixmap; anything else,
      a missing key included, clears it. Nothing but the box changes. */
  function SetBoundingBox(s: VideoState, input: BoxInput): (r: VideoState)
    ensures r.pixmap == s.pixmap && r.error == s.error && r.dayMode == s.dayMode
    ensures r.box.Some? <==>
      Truthy(input) && ReadBox(input.fields).Ok? && BoxFits(ReadBox(input.fields).value, s.pixmap)
    ensures r.box.Some? ==>
      r.box.value == Box(input.fields["x"], input.fields["y"], input.fields["w"], input.fields["h"])
  {
    if !Truthy(input) then s.(box := None)
    else
      match ReadBox(input.fields)
      case Err(_) => s.(box := None)   // the KeyError is caught and printed
      case Ok(b) => s.(box := if BoxFits(b, s.pixmap) then Some(b) else None)
  }

  /** Stores a frame (or none for a null one) and clears the error; if the
      argument is no pixmap, the caught exception becomes the error text and
      the stored frame stays. The box is never rechecked. */
  function SetPixmap(s: VideoState, f: FrameInput): (r: VideoState)
    ensures r.box == s.box && r.dayMode == s.dayMode
    ensures f.NullFrame? ==> r.pixmap.None? && r.error == ""
    ensures f.Frame? ==> r.pixmap == Some(f.scaled) && r.error == ""
    ensures f.NotAPixmap? ==> r.pixmap == s.pixmap && r.error == PixmapErrorPrefix + f.reason
    ensures f.NotAPixmap? ==> r.error != ""
  {
    match f
    case NullFrame => s.(pixmap := None, error := "")
    case Frame(size) => s.(pixmap := Some(size), error := "")
    case NotAPixmap(reason) => s.(error := PixmapErrorPrefix + reason)
  }

  function Apply(s: VideoState, e: Event): VideoState {
    match e
    case FrameUpdated(f) => SetPixmap(s, f)
    case ErrorOccurred(m) => SetErrorMessage(s, m)
    case BoxUpdated(b) => SetBoundingBox(s, b)
    case DayModeChanged(d) => SetDayMode(s, d)
  }

  function ApplyAll(s: VideoState, events: seq<Event>): VideoState
    decreases |events|
  {
    if |events| == 0 then s else ApplyAll(Apply(s, events[0]), events[1..])
  }

  /** Every setter keeps "frame or error, never both" as long as it is handed real pixmaps. */
  lemma {:induction false} FrameOrErrorPreserved(s: VideoState, events: seq<Event>)
    requires FrameOrError(s)
    requires forall i :: 0 <= i < |events| ==> PixmapTyped(events[i])
    ensures FrameOrError(ApplyAll(s, events))
    decreases |events|
  {
    if |events| > 0 {
      assert PixmapTyped(events[0]);
      var next := Apply(s, events[0]);
      assert FrameOrError(next);
      FrameOrErrorPreserved(next, events[1..]);
    }
  }

  /** The caught exception of `set_pixmap` leaves a frame and an error current together. */
  lemma PixmapExceptionKeepsFrame()
    ensures var s := SetPixmap(SetPixmap(Init(true, true), Frame(Size(640, 480))), NotAPixmap("boom"));
      s.pixmap.Some? && s.error != "" && !FrameOrError(s)
  {
  }

  /** Storing the same box twice is the same as storing it once. */
  lemma SetBoundingBoxIdempotent(s: VideoState, input: BoxInput)
    ensures SetBoundingBox(SetBoundingBox(s, input), input) == SetBoundingBox(s, input)
  {
  }

  /** A box this widget accepts keeps the crosshair inside the widget as long
      as no other frame arrives. */
  lemma AcceptedBoxAnchorInside(s: VideoState, input: BoxInput, width: nat, height: nat)
    requires SetBoundingBox(s, input).box.Some? && s.pixmap.Some?
    ensures var a := Paint(TenInch, SetBoundingBox(s, input), width, height).crosshair.anchor;
      0 <= a.x <= width && 0 <= a.y <= height
  {
    FittingBoxAnchorInside(SetBoundingBox(s, input), width, height);
  }

  /** A rejected or absent box leaves the crosshair at the widget centre
      with its default length. */
  lemma RejectedBoxCentresCrosshair(s: VideoState, input: BoxInput, width: nat, height: nat)
    requires SetBoundingBox(s, input).box.None?
    ensures var c := Paint(TenInch, SetBoundingBox(s, input), width, height).crosshair;
      c.anchor == Point(width / 2, height / 2) && c.length == 30
  {
  }

  /** A box accepted against one frame is not rechecked when a narrower frame
      arrives: on an 800x480 widget, a box checked against a 640x480 frame
      stays when a 480x480 frame replaces it, and the crosshair then lands at
      int(620 * 800 / 480) = 1033, past the widget's right edge. */
  lemma StaleBoxLeavesWidget()
    ensures var boxed := SetBoundingBox(SetPixmap(Init(true, true), Frame(Size(640, 480))),
                                        BoxDict(map["x" := 600, "y" := 0, "w" := 40, "h" := 40]));
      var s := SetPixmap(boxed, Frame(Size(480, 480)));
      boxed.box.Some? && s.box == boxed.box && Paint(TenInch, s, 800, 480).crosshair.anchor.x == 1033
  {
    var fields := map["x" := 600, "y" := 0, "w" := 40, "h" := 40];
    assert ReadBox(fields) == Ok(Box(600, 0, 40, 40));
    var boxed := SetBoundingBox(SetPixmap(Init(true, true), Frame(Size(640, 480))), BoxDict(fields));
    assert boxed.box == Some(Box(600, 0, 40, 40));
    var s := SetPixmap(boxed, Frame(Size(480, 480)));
    assert Anchor(s.box, s.pixmap, 800, 480).x == Arith.TruncDiv(620 * 800, 480);
  }

  /** A 100x100 box in a 640x480 frame shown on an 800x480 widget: the anchor
      is the truncated 187.5 and the length is clamped from 50 down to 45. */
  lemma ScaledBoxScenario()
    ensures var s := SetBoundingBox(SetPixmap(Init(true, true), Frame(Size(640, 480))),
                                    BoxDict(map["x" := 100, "y" := 100, "w" := 100, "h" := 100]));
      var c := Paint(TenInch, s, 800, 480).crosshair;
      c.anchor == Point(187, 150) && c.length == 45
  {
    var fields := map["x" := 100, "y" := 100, "w" := 100, "h" := 100];
    assert ReadBox(fields) == Ok(Box(100, 100, 100, 100));
    var s := SetBoundingBox(SetPixmap(Init(true, true), Frame(Size(640, 480))), BoxDict(fields));
    assert s.box == Some(Box(100, 100, 100, 100)) && s.pixmap == Some(Size(640, 480));
    assert Anchor(s.box, s.pixmap, 800, 480) == Point(187, 150);
    assert CrossLength(TenInch, s.box) == 45;
  }

  /** A box reaching past the frame's right edge is dropped and the crosshair
      returns to the widget centre with its default length. */
  lemma OversizedBoxScenario()
    ensures var s := SetBoundingBox(SetPixmap(Init(true, true), Frame(Size(640, 480))),
                                    BoxDict(map["x" := 600, "y" := 0, "w" := 100, "h" := 100]));
      var c := Paint(TenInch, s, 800, 480).crosshair;
      s.box.None? && c.anchor == Point(400, 240) && c.length == 30
  {
    var fields := map["x" := 600, "y" := 0, "w" := 100, "h" := 100];
    assert ReadBox(fields) == Ok(Box(600, 0, 100, 100));
  }

  // ---------------------------------------------------------------------------
  // The capture thread, as the signals it emits

  datatype ReadOutcome = Grabbed(frame: FrameSize) | ReadFailed

  /** One run of the capture thread: the device does not open, or it opens,
      yields `outcomes` until stopped, and possibly ends in an exception. */
  datatype CaptureRun = OpenFailed | Opened(outcomes: seq<ReadOutcome>, raised: Option<string>)

  /** The frames the device delivered, in order. */
  function GrabbedFrames(outcomes: seq<ReadOutcome>): seq<FrameSize> {
    if |outcomes| == 0 then []
    else (if outcomes[0].Grabbed? then [outcomes[0].frame] else []) + GrabbedFrames(outcomes[1..])
  }

  /** How many reads failed. */
  function FailedReads(outcomes: seq<ReadOutcome>): nat {
    if |outcomes| == 0 then 0
    else (if outcomes[0].ReadFailed? then 1 else 0) + FailedReads(outcomes[1..])
  }

  /** The signals of one loop iteration: a grabbed frame as it is, a failed
      read as the read-failure text followed by a null frame. */
  function IterationSignals(o: ReadOutcome): (events: seq<Event>)
    ensures AllFromCapture(events) && ErrorsThenNullFrame(events) && ErrorsCarry(events, ReadFailedMessage)
    ensures EmittedFrames(events) == (if o.Grabbed? then [o.frame] else [])
    ensures CountErrors(events) == (if o.ReadFailed? then 1 else 0)
  {
    match o
    case Grabbed(f) =>
      var events := [FrameUpdated(Frame(f))];
      assert events[1..] == [];
      events
    case ReadFailed =>
      var events := FailureSignals(ReadFailedMessage);
      assert events[1..] == [FrameUpdated(NullFrame)] && events[1..][1..] == [];
      events
  }

  /** The signals of the read loop, one iteration after another. */
  function ReadSignals(outcomes: seq<ReadOutcome>): (events: seq<Event>)
    ensures AllFromCapture(events)
    ensures EmittedFrames(events) == GrabbedFrames(outcomes)
    ensures ErrorsThenNullFrame(events)
    ensures ErrorsCarry(events, ReadFailedMessage)
    ensures CountErrors(events) == FailedReads(outcomes)
    ensures |events| == |outcomes| + FailedReads(outcomes)
  {
    if |outcomes| == 0 then []
    else
      var first := IterationSignals(outcomes[0]);
      var rest := ReadSignals(outcomes[1..]);
      CountErrorsAppend(first, rest);
      EmittedFramesAppend(first, rest);
      ErrorsThenNullFrameAppend(first, rest);
      AllFromCaptureAppend(first, rest);
      ErrorsCarryAppend(first, rest, ReadFailedMessage);
      first + rest
  }

  /** The read loop's signals are those of each iteration in turn. */
  lemma {:induction false} ReadSignalsAppend(a: seq<ReadOutcome>, b: seq<ReadOutcome>)
    ensures ReadSignals(a + b) == ReadSignals(a) + ReadSignals(b)
    decreases |a|
  {
    if |a| == 0 {
      assert a + b == b;
    } else {
      assert (a + b)[0] == a[0];
      assert (a + b)[1..] == a[1..] + b;
      ReadSignalsAppend(a[1..], b);
    }
  }

  /** One iteration: a grabbed frame is emitted as it is; a failed read emits
      the read-failure text and then a null frame. */
  lemma ReadSignalsSingle(f: FrameSize)
    ensures ReadSignals([Grabbed(f)]) == [FrameUpdated(Frame(f))]
    ensures ReadSignals([ReadFailed]) == [ErrorOccurred(ReadFailedMessage), FrameUpdated(NullFrame)]
  {
    assert [Grabbed(f)][1..] == [] && [ReadFailed][1..] == [];
  }

  function CaptureSignals(run: CaptureRun): (events: seq<Event>)
    ensures AllFromCapture(events)
    ensures ErrorsThenNullFrame(events)
    ensures run.Opened? ==> EmittedFrames(events) == GrabbedFrames(run.outcomes)
    ensures run.OpenFailed? ==> events == FailureSignals(OpenFailedMessage)
    ensures run.Opened? && run.raised.None? ==> events == ReadSignals(run.outcomes)
    ensures run.Opened? && run.raised.Some? ==>
      |events| >= 2 && events[|events| - 2..] == FailureSignals(ThreadErrorPrefix + run.raised.value)
    ensures run.Opened? && run.raised.Some? ==>
      events == ReadSignals(run.outcomes) + FailureSignals(ThreadErrorPrefix + run.raised.value)
  {
    match run
    case OpenFailed => FailureSignals(OpenFailedMessage)
    case Opened(outcomes, raised) =>
      var tail := if raised.Some? then FailureSignals(ThreadErrorPrefix + raised.value) else [];
      assert EmittedFrames(tail) == [] by {
        if raised.Some? {
          assert tail[1..] == [FrameUpdated(NullFrame)] && tail[1..][1..] == [];
          assert EmittedFrames(tail[1..]) == [];
        }
      }
      ErrorsThenNullFrameAppend(ReadSignals(outcomes), tail);
      EmittedFramesAppend(ReadSignals(outcomes), tail);
      AllFromCaptureAppend(ReadSignals(outcomes), tail);
      ReadSignals(outcomes) + tail
  }

  /** Delivering a failure leaves no frame and no error text behind: the
      null frame that follows the error wipes the banner at once. */
  lemma FailureLeavesBlankPanel(s: VideoState, message: string)
    ensures var r := ApplyAll(s, FailureSignals(message));
      r.pixmap.None? && r.error == "" && r.box == s.box && r.dayMode == s.dayMode
  {
    var events := FailureSignals(message);
    var shown := SetErrorMessage(s, message);
    assert events[1..] == [FrameUpdated(NullFrame)] && events[1..][1..] == [];
    assert ApplyAll(s, events) == ApplyAll(shown, events[1..]);
    assert ApplyAll(shown, events[1..]) == ApplyAll(SetPixmap(shown, NullFrame), []);
  }

  lemma {:induction false} ApplyAllAppend(s: VideoState, a: seq<Event>, b: seq<Event>)
    ensures ApplyAll(s, a + b) == ApplyAll(ApplyAll(s, a), b)
    decreases |a|
  {
    if |a| > 0 {
      assert (a + b)[0] == a[0];
      assert (a + b)[1..] == a[1..] + b;
      ApplyAllAppend(Apply(s, a[0]), a[1..], b);
    } else {
      assert a + b == b;
    }
  }

  /** Whatever the capture thread emits, the widget ends with an empty error
      text: no capture error stays on screen. */
  lemma {:induction false} ReadSignalsClearError(s: VideoState, outcomes: seq<ReadOutcome>)
    requires |outcomes| > 0
    ensures ApplyAll(s, ReadSignals(outcomes)).error == ""
    decreases |outcomes|
  {
    var first := IterationSignals(outcomes[0]);
    var rest := ReadSignals(outcomes[1..]);
    assert ReadSignals(outcomes) == first + rest;
    ApplyAllAppend(s, first, rest);
    if |outcomes| == 1 {
      assert rest == [];
      match outcomes[0]
      case Grabbed(f) =>
        assert first[1..] == [];
      case ReadFailed =>
        FailureLeavesBlankPanel(s, ReadFailedMessage);
    } else {
      ReadSignalsClearError(ApplyAll(s, first), outcomes[1..]);
    }
  }

  /** Whatever a thread run emits, once it has emitted anything the error text is empty. */
  lemma CaptureRunClearsError(s: VideoState, run: CaptureRun)
    requires run.OpenFailed? || |run.outcomes| > 0 || run.raised.Some?
    ensures ApplyAll(s, CaptureSignals(run)).error == ""
  {
    match run
    case OpenFailed =>
      FailureLeavesBlankPanel(s, OpenFailedMessage);
    case Opened(outcomes, raised) =>
      var tail := if raised.Some? then FailureSignals(ThreadErrorPrefix + raised.value) else [];
      ApplyAllAppend(s, ReadSignals(outcomes), tail);
      if raised.Some? {
        FailureLeavesBlankPanel(ApplyAll(s, ReadSignals(outcomes)), ThreadErrorPrefix + raised.value);
      } else {
        assert CaptureSignals(run) == ReadSignals(outcomes) + [];
        assert ReadSignals(outcomes) + [] == ReadSignals(outcomes);
        ReadSignalsClearError(s, outcomes);
      }
  }
}
